=== FILE: README.md ===
# AI resume analyzer: verified model of its decision logic

The AI resume analyzer is a browser page plus a small Flask server. The page
takes a resume and a job description, each as an uploaded PDF or as pasted
text, and posts them to the server. The server passes the two texts to a
language model and returns the matched skills, the missing skills and a
score. Three decision procedures sit under the DOM and HTTP glue, and this
project models and proves all three:

1. **The page script** (`frontend/script.js`). This covers the analyze-click
   validator and form builder (module `Submission`), the tab bar of each input
   group (`Tabs`), and the file input with its label and clear button
   (`FilePicker`). It also covers the page controller (`Page`). The controller
   handles the busy state and its `finally` cleanup, `displayResults`, and the
   export guarded by `currentResults`. The controller is a state machine over an
   immutable page record, with an invariant that every event keeps.
2. **The server's input selection** for `/api/analyze` (`Analyze.ReadSide`,
   `Analyze.SelectInputs`). It picks, in a fixed order, between an uploaded PDF
   and a text field for each input, and produces either the two texts or a 400
   response.
3. **The server's reply handling.** It takes the span of the model's reply from
   the first `{` through the last `}`, guarded against a missing brace
   (`Analyze.JsonSpan`). It then projects the parsed object onto three keys with
   defaults (`Analyze.Normalize`). The project also models `/api/skill_info`
   (`SkillInfo`), whose slice is unguarded and is modelled with Python's slicing
   rules.

Supporting modules:

- `Text` holds JavaScript `trim`/`split`, Python `find`/`rfind`/slicing, and
  decimal numerals.
- `JsonValue` holds parsed JSON values with JavaScript and Python truthiness.
- `Wrappers` holds `Option` and `Result`.
- `Bridge` connects the form the page posts to the request the server reads.

Foreign calls become parameters:

- The language model is a function `ask` from the input texts (or the skill
  value) to `Option<string>`, where `None` means the call raised.
- `json.loads` is a function `parse: string -> Option<Json>`.
- The text `extract_text_from_pdf` produced for each uploaded file is stored in
  the request's `files` map.
- The result of the `fetch` call is an input of `Page.Settle`.

Behaviour of the code worth noting:

- The group modes are the strings `pdf`/`text`. Only the exact string `pdf`
  selects the file branch. A `data-for` without a dash records `undefined`,
  which behaves as text mode in the validator and hides both panels.
- `displayResults` writes `currentResults` before it walks the skill lists.
  A successful response whose lists are not arrays therefore leaves
  `currentResults` set. It also raises an alert, and the export button stays
  hidden.
- Clearing a file input empties it and re-runs the `change` listener, so the
  label goes through the same code path as a user's selection. Clearing twice
  gives the same input as clearing once (`FilePicker.ClearIdempotent`).
- `fetch` sends the form with the HTML standard's multipart/form-data
  encoding, which rewrites every bare CR or LF in a text value as CRLF. The
  server therefore sees the typed text with its line breaks rewritten
  (`Text.NormalizeNewlines`, `Bridge.ToRequest`).

## Model

| member | source | states |
|---|---|---|
| Text.Trim | frontend/script.js:90 | The trimmed value is empty exactly when every character is JavaScript whitespace. Otherwise it is the stretch of the input from the first to the last non-whitespace character, with only whitespace cut on either side. |
| Text.Split | frontend/script.js:66 | `split('-')` always yields at least one piece, and no piece contains the separator. |
| Text.JoinSplit | frontend/script.js:66 | Joining the pieces of a split with the separator gives back the original string. |
| Text.SplitPair | frontend/script.js:66 | `a-b`, with no dash in `a` or `b`, splits into exactly `[a, b]`. |
| Text.Find | backend/app.py:88 | `find('{')` returns -1 exactly when there is no `{`. Otherwise it returns the index of a `{` with none before it. |
| Text.RFind | backend/app.py:89 | `rfind('}')` returns -1 exactly when there is no `}`. Otherwise it returns the index of a `}` with none after it. |
| Text.Decimal | frontend/script.js:111 | The numeral printed for a status is non-empty and all digits, with no leading zero unless the value is 0. |
| Text.DecimalRoundTrip | frontend/script.js:111 | The printed status numeral reads back as the status itself. |
| Text.NormalizeNewlines | frontend/script.js:109 | The multipart encoding of a text value leaves it empty exactly when it was empty, leaves no bare CR or LF, and changes nothing in a value without line breaks. |
| Text.NormalizeNewlinesKeepsText | frontend/script.js:109 | The encoding keeps every character that is not a CR or LF, in order. |
| Text.NormalizeNewlinesViaLf | frontend/script.js:109 | The encoding equals an independent two-step definition: read each CRLF, lone CR and lone LF as one line break, then write every line break as CRLF. So the lines, and the number of line breaks, are kept. |
| Text.NormalizeNewlinesIdempotent | frontend/script.js:109 | Encoding an already encoded value changes nothing. |
| JsonValue.GetOrDefault | backend/app.py:98-100 | Python's `dict.get(key, default)` is the browser's member lookup on the same object with `default` in place of `undefined`: the stored value when the key is present, even a null, and the default only when the key is absent. |
| Submission.CheckGroup | frontend/script.js:86-92 | One group is accepted exactly when it is ready: a file in pdf mode, non-blank text otherwise. A rejected group gets its mode's fixed message. An accepted group gets the entry for its mode's key, and the text entry carries the raw, untrimmed value. |
| Submission.Validate | frontend/script.js:83-101 | A form is posted exactly when both groups are ready. A bad resume raises only the resume's message, whatever the job description holds, and a bad job description raises only its own. A posted form has the resume entry and then the job-description entry, each chosen by its group's mode alone. |
| Submission.PostedFormHasOneKeyPerGroup | frontend/script.js:86-100 | A posted form carries exactly one of `resume_pdf`/`resume_text` and exactly one of `jd_pdf`/`jd_text`, and which one is decided by the mode. |
| Submission.BlankTextNeverPosts | frontend/script.js:90-93 | A resume in text mode that holds only whitespace stops the submission with "Please paste your resume text.", and nothing is posted. |
| Tabs.InputTypeOfPrefixed | frontend/script.js:66 | For `data-for` of the form `<prefix>-<kind>`, the recorded input type is `kind`. |
| Tabs.FirstActive | frontend/script.js:64 | `querySelector('.active')` finds the first active tab in document order, or nothing when no tab is active. |
| Tabs.Click | frontend/script.js:63-69 | With no active tab, the click changes nothing, because the handler throws. Otherwise: the clicked tab becomes active, the first previously active tab stops being active, and all other tabs keep their state. The recorded type is the second segment of the clicked tab's `data-for`, and each panel is hidden unless its name equals that type. |
| Tabs.ClickKeepsCoherent | frontend/script.js:64-69 | From a coherent tab bar, a click leaves exactly one active tab (the clicked one) and the panels agree with the new type. |
| Tabs.CoherentShowsOnePanel | frontend/script.js:68-69 | In a coherent group exactly one panel is visible, and it is the one matching the recorded input type. |
| Tabs.Initial | frontend/script.js:31-32 | Each group starts in pdf mode, and its tab bar starts coherent. |
| FilePicker.OnChange | frontend/script.js:36-46 | After `change`, the label shows the first file's name and the clear button is shown, or, with no file, "No file selected" in italics with the clear button hidden. The selection itself is untouched. |
| FilePicker.Pick | frontend/script.js:36-46 | Picking files makes them the selection, and the label describes them. |
| FilePicker.Clear | frontend/script.js:48-52 | Clearing always ends with no file, "No file selected", italic style and a hidden clear button. |
| FilePicker.ClearIdempotent | frontend/script.js:48-52 | Clearing twice gives the same input as clearing once. |
| Page.PdfReadyIffClearShown | frontend/script.js:36-46 | In pdf mode the validator's `files[0]` check (frontend/script.js:87) accepts a group exactly when the group's clear button is shown, so the label and the check agree. |
| Page.HttpErrorMessage | frontend/script.js:111 | The fallback error text starts with "HTTP error! status: ", and its remaining digits read back as the status. The numeral has no leading zero: it starts with `0` only when it is exactly "0". |
| Page.ErrorOf | frontend/script.js:110-111 | A non-ok response reports the body's `error` when it is truthy, and `HTTP error! status: <code>` otherwise. Reading `error` from a null body is a TypeError. |
| Page.AnalyzeClick | frontend/script.js:83-107 | An invalid form raises exactly its alert and leaves the page unchanged. A valid one posts the validator's form and puts the page into the busy state. In the busy state the button is disabled and reads "Analyzing...", the spinner is shown, and the results and export button are hidden. The inputs and `currentResults` are unchanged. |
| Page.DisplayResults | frontend/script.js:124-151 | `currentResults` always becomes the body. Results and the export button are shown only when both skill lists are arrays. Otherwise the page is unchanged apart from `currentResults`. In both cases the groups, the button text, its disabled state and the spinner are untouched. |
| Page.Settle | frontend/script.js:108-120 | On every exit path the button ends enabled, labelled "Analyze", with the spinner hidden. An alert is raised on every path except a successful display. Thrown errors and non-ok statuses report their messages. `currentResults` changes only for an ok status, and the export button changes only through a successful display. An ok reply whose skill lists are arrays shows the results and the export button and hides the placeholder. On every other path the results, placeholder and export button keep their visibility. |
| Page.Export | frontend/script.js:178-195 | Export is refused with "Please run an analysis first." exactly when `currentResults` is falsy. Otherwise it saves a report under the fixed title and file name, carrying the score and both skill lists in order. If either list is not an array, nothing is saved. |
| Page.Handle | frontend/script.js:35-195 | The page's event dispatch. Only a click on the enabled analyze button with a valid form posts, and it posts the validator's form. A click on the disabled analyze button does nothing. A reply arriving while the button is enabled is ignored. An export click never changes the page: it downloads exactly when the button is visible and the export succeeds, and a hidden button or an export TypeError has no effect. A click on a tab the bar does not have is ignored. Tab, file, clear and typing events have no effect outside the page and change only the group they address. |
| Page.Initial | frontend/script.js:29-32 | The page loads coherent, with both groups in pdf mode, `currentResults` null, and the button enabled, reading "Analyze", with the spinner hidden. The idle button, the hidden spinner, results and export button, and the tab layout come from the markup and are assumed (see Left out). |
| Page.HandleKeepsCoherent | frontend/script.js:35-151 | Every event keeps the page invariant. The invariant: coherent tab bars and labels, a button that is either fully busy or fully idle, and a visible export button only over a reportable result. |
| Page.VisibleExportSaves | frontend/script.js:179-195 | While the export button is visible, a click always downloads the report of the displayed lists. So, under the markup assumption that the button starts hidden, the "no result" notice cannot be reached through the button. |
| Page.ExportShownOnlyByDisplay | frontend/script.js:106-151 | Only a settled ok reply with walkable skill lists makes a hidden export button visible. Only a settled ok reply writes `currentResults`, and it writes the reply's body. |
| Page.BusyUntilReply | frontend/script.js:104-119 | While a request is in flight, only its reply ends the busy state. Every other event leaves the button disabled with its busy text and spinner, and none of them posts a second form. |
| Analyze.ReadSide | backend/app.py:60-69 | An input resolves to text exactly when an uploaded file yielded non-empty text, or, with no file under the key, the text field is non-empty. The file wins over the text field. Neither key gives 400 "…is required."; an empty or failed extraction gives 400 "Could not get text from the … input.". |
| Analyze.SelectInputs | backend/app.py:60-81 | Both texts are returned exactly when both inputs resolve. The resume is resolved first, so its error is returned whenever it fails, even if the job description fails too. |
| Analyze.JsonSpan | backend/app.py:88-94 | There is no span exactly when a brace is missing. The span is a substring of the reply, outermost in the sense that no `{` comes before it and no `}` after it. It is empty exactly when every `}` precedes every `{`, and otherwise it starts with `{` and ends with `}`. |
| Analyze.Normalize | backend/app.py:97-101 | The result has exactly the keys `matched_skills`, `missing_skills` and `score`. Each takes the model's value when present and `[]`, `[]`, `0` otherwise; all other keys are dropped. |
| Analyze.NormalizeIdempotent | backend/app.py:97-101 | Normalising an already normalised result changes nothing. |
| Analyze.ProcessReply | backend/app.py:83-106 | The outcome is 200 exactly when the model answered, a span exists, it parses, and the parsed value is an object; the body is then the normalised object. Every other path gives the fixed 500. |
| Analyze.AnalyzeSkills | backend/app.py:54-106 | An uninitialised model gives 500 first. Otherwise input errors are returned as 400. Otherwise the model is asked with exactly the two selected texts. A 200 body always has exactly the three result keys. |
| Analyze.RejectedInputIgnoresModel | backend/app.py:60-81 | A request rejected by input validation gets the same response whatever the model would say: the model is not reached. |
| Analyze.MissingBothReportsResume | backend/app.py:60-66 | With both inputs missing, the response is the resume's "is required" 400. |
| Analyze.PdfTakesPrecedence | backend/app.py:61-64 | When both a PDF and text are supplied, the PDF's extraction is used, and a failed extraction gives 400 even though the text was usable. |
| SkillInfo.UnguardedSliceWhenBraceMissing | backend/app.py:139-141 | Without the guard, a reply that lacks a brace slices to "" or "}", because a start of -1 wraps to the last character. |
| SkillInfo.UnguardedSliceWhenBracesPresent | backend/app.py:139-141 | With both braces present, the unguarded slice equals the guarded span. |
| SkillInfo.GetSkillInfo | backend/app.py:124-147 | An uninitialised model gives 500 first. A body that is not an object raises outside the `try`. A falsy or absent skill gives 400 before the model is asked. With a skill, the response is 200 exactly when the model answers and its unguarded slice parses, and the body is then the parsed value without key filtering. Any other failure gives the fixed 500. |
| SkillInfo.MissingGuardIsHarmless | backend/app.py:139-143 | For any parser that rejects "" and "}", as `json.loads` does, the unguarded endpoint answers exactly like a version with the analysis endpoint's guard. |
| SkillInfo.RejectedSkillIgnoresModel | backend/app.py:130-133 | A falsy skill name is rejected whatever the model would say. |
| Bridge.ToRequest | frontend/script.js:84-100 | Every file entry of the posted form appears in `request.files` holding the text extracted from that file, and every text entry appears in `request.form` holding its value with line breaks made CRLF. For a key repeated within one kind, the first entry wins. Every key the server sees comes from an entry of that kind. |
| Bridge.PostedFormMeetsServer | backend/app.py:60-81 | A form the page posts passes the server's input selection exactly when every uploaded PDF yields non-empty text. The server then works on the extracted text, or on the untrimmed typed text with only its line breaks rewritten. |

## Left out

- Flask routing, CORS, dotenv loading and `app.run`: HTTP plumbing. Each endpoint is a function from an abstract request to a response, and model initialisation is the `ready` flag.
- The language-model call, PDF text extraction and `json.loads`: foreign code, so they are parameters. `jsonify` is the identity on the modelled JSON value.
- The prompt templates (backend/app.py:37-52, 111-122): fixed text with nothing to decide. `ask` receives the inputs the template is built from.
- The skill-detail modal (frontend/script.js:76-80, 154-175): it changes display text only, and its server side is modelled in `SkillInfo`.
- Rendering, the score chart, the list items, the jsPDF table layout, `alert` display and console logging: UI output. The model keeps what is shown or hidden, the alert contents, and the report's rows.
- `fetch`/`await` and the unguarded race between stale and fresh responses: concurrency. A reply is an input event, and it is accepted only while the analyze button is disabled.
- Page.ErrorOf: a truthy `error` that is not a string is carried as a JSON value and not rendered through JavaScript's `String`. TypeErrors raised by the script carry no message, because the engine chooses it.
- SkillInfo.GetSkillInfo: a request body that is not a JSON object is treated as an unhandled exception (generic 500). Flask's own handling of non-JSON content types, which may differ by Flask version, is not modelled.
- JSON numbers are exact reals. Floating-point rounding and the chart's arithmetic on the score are not modelled.
- The page markup (index.html) is not part of this model. The model assumes what it provides at load: each tab bar holds an active `<prefix>-pdf` tab followed by a `<prefix>-text` tab, every tab has a `data-for` attribute, and only the pdf panel is shown. It also assumes the analyze button reads "Analyze" and is enabled, the spinner, results and export button are hidden, and the placeholder is shown. Each file label reads "No file selected" in italics with its clear button hidden, and both textareas are empty (`FilePicker.Empty` in `Page.Initial`). An element with class `hidden` receives no clicks: `Page.Handle` ignores a click on the hidden export button, and `Page.VisibleExportSaves` relies on that. A click on a hidden clear button is still handled, but on a coherent page it finds the input already empty and changes nothing. `Page.VisibleExportSaves` relies on the export button starting hidden. A tab without `data-for` would throw after the `active` class has moved, and `Tabs.Click` does not represent that path.
- Text.Trim: the whitespace set is the one ECMA-262 names, with the Unicode space separators as of Unicode 15.
- Files are identified by an opaque number plus their name. PDF extraction is a function of that identity, and file contents are otherwise not modelled.

=== FILE: analyze.dfy ===
/**
 * The `/api/analyze` endpoint of backend/app.py (`analyze_skills`): input
 * selection and validation for the resume and the job description, the call
 * to the language model, the extraction of the JSON span from its reply and
 * the projection of the parsed object onto the three result keys.
 *
 * The language model and `json.loads` are parameters: `ask` maps the resume
 * and job-description texts to the reply text (`None` when the call raises),
 * `parse` maps a string to the parsed value (`None` when it raises). PDF text
 * extraction is already applied: an uploaded file's entry holds what
 * `extract_text_from_pdf` returned for it.
 */
module Analyze {
  import opened Wrappers
  import opened Text
  import opened JsonValue

  /** The request as the endpoint reads it: uploaded file keys with the text
      extracted from each file, and the plain form fields. */
  datatype Request = Request(files: map<string, Option<string>>, form: map<string, string>)

  /** A JSON response with its status, or the server's generic error page for
      an exception the handler does not catch. */
  datatype Response = JsonResponse(status: nat, body: Json) | UnhandledError

  /** `jsonify({"error": message}), status`. */
  function ErrorResponse(status: nat, message: string): Response {
    JsonResponse(status, JObject(map["error" := JString(message)]))
  }

  const NotInitialised := "Google Gemini client not initialized. Check your API key."
  const ProcessingFailed := "An error occurred while processing the analysis."

  /** The form keys and error texts of one input. */
  datatype Side = Side(pdfKey: string, textKey: string, required: string, unreadable: string)

  const ResumeSide := Side("resume_pdf", "resume_text",
    "Resume (either PDF or text) is required.", "Could not get text from the resume input.")
  const JdSide := Side("jd_pdf", "jd_text",
    "Job description (either PDF or text) is required.", "Could not get text from the job description input.")

  /** Reference definition of a usable input: an uploaded file that yielded
      non-empty text, or, with no file under the key, a non-empty text field. */
  predicate Supplied(req: Request, side: Side) {
    if side.pdfKey in req.files then req.files[side.pdfKey].Some? && req.files[side.pdfKey].value != ""
    else side.textKey in req.form && req.form[side.textKey] != ""
  }

  /** The text one input resolves to, or the 400 response it produces. An
      uploaded file takes precedence over a text field; an input given under
      neither key is "required"; one whose text is missing or empty (a failed
      extraction included) "could not get text". */
  function ReadSide(req: Request, side: Side): (r: Result<string, Response>)
    ensures r.Ok? <==> Supplied(req, side)
    ensures r.Ok? ==> r.value != ""
    ensures r.Ok? && side.pdfKey in req.files ==> req.files[side.pdfKey] == Some(r.value)
    ensures r.Ok? && side.pdfKey !in req.files ==> req.form[side.textKey] == r.value
    ensures r.Err? && side.pdfKey !in req.files && side.textKey !in req.form ==> r.error == ErrorResponse(400, side.required)
    ensures r.Err? && (side.pdfKey in req.files || side.textKey in req.form) ==> r.error == ErrorResponse(400, side.unreadable)
  {
    var text: Option<string> :=
      if side.pdfKey in req.files then req.files[side.pdfKey]
      else if side.textKey in req.form then Some(req.form[side.textKey])
      else None;
    if side.pdfKey !in req.files && side.textKey !in req.form then Err(ErrorResponse(400, side.required))
    else if text.None? || text.value == "" then Err(ErrorResponse(400, side.unreadable))
    else Ok(text.value)
  }

  /** Both inputs, the resume fully resolved and validated before the job
      description is looked at: when both are bad, the resume's error wins. */
  function SelectInputs(req: Request): (r: Result<(string, string), Response>)
    ensures r.Ok? <==> Supplied(req, ResumeSide) && Supplied(req, JdSide)
    ensures !Supplied(req, ResumeSide) ==> r == Err(ReadSide(req, ResumeSide).error)
    ensures Supplied(req, ResumeSide) && !Supplied(req, JdSide) ==> r == Err(ReadSide(req, JdSide).error)
    ensures r.Ok? ==> r.value == (ReadSide(req, ResumeSide).value, ReadSide(req, JdSide).value)
  {
    match ReadSide(req, ResumeSide)
    case Err(e) => Err(e)
    case Ok(resume) =>
      match ReadSide(req, JdSide)
      case Err(e) => Err(e)
      case Ok(jd) => Ok((resume, jd))
  }

  /** The text `text` holds at `k` onwards, `v`, is the span from the first `{`
      through the last `}`: nothing before it opens a brace and nothing after
      it closes one. */
  predicate OutermostAt(text: string, v: string, k: nat) {
    && k + |v| <= |text|
    && text[k..k + |v|] == v
    && (v != [] ==> '{' !in text[..k] && '}' !in text[k + |v|..])
  }

  /** `text[text.find('{'):text.rfind('}') + 1]` behind the "no JSON object"
      guard. `None` when either brace is missing. Otherwise a substring of the
      reply; empty exactly when every `}` comes before every `{`, and else
      starting with the first `{` and ending with the last `}`. */
  function JsonSpan(text: string): (r: Option<string>)
    ensures r.None? <==> '{' !in text || '}' !in text
    ensures r.Some? ==> exists k: nat :: OutermostAt(text, r.value, k)
    ensures r.Some? && r.value != [] ==> r.value[0] == '{' && r.value[|r.value| - 1] == '}'
    ensures r.Some? ==> (r.value == [] <==>
      forall i, j :: 0 <= i < |text| && 0 <= j < |text| && text[i] == '{' && text[j] == '}' ==> j < i)
  {
    var start := Find(text, '{');
    var end := RFind(text, '}') + 1;
    if start == -1 || end == 0 then None
    else
      var v := PySlice(text, start, end);
      SpanFacts(text, start, end, v);
      Some(v)
  }

  /** `k` is the index of the first `c` in `text`. */
  predicate FirstAt(text: string, c: char, k: int) {
    0 <= k < |text| && text[k] == c && forall m :: 0 <= m < k ==> text[m] != c
  }

  /** `k` is the index of the last `c` in `text`. */
  predicate LastAt(text: string, c: char, k: int) {
    0 <= k < |text| && text[k] == c && forall m :: k < m < |text| ==> text[m] != c
  }

  /** The slice between the first `{` and just past the last `}` is outermost,
      braced when non-empty, and empty exactly when every `}` precedes every `{`. */
  lemma SpanFacts(text: string, start: int, end: int, v: string)
    requires FirstAt(text, '{', start) && LastAt(text, '}', end - 1)
    requires v == PySlice(text, start, end)
    ensures OutermostAt(text, v, start)
    ensures v != [] ==> v[0] == '{' && v[|v| - 1] == '}'
    ensures v == [] <==>
      forall i, j :: 0 <= i < |text| && 0 <= j < |text| && text[i] == '{' && text[j] == '}' ==> j < i
  {
    assert SliceBound(start, |text|) == start && SliceBound(end, |text|) == end;
    if start >= end {
      assert v == [];
      SpanEmptyWhenCrossed(text, start, end);
    } else {
      SpanWhenOrdered(text, start, end, v);
    }
  }

  /** When the first `{` comes no later than the last `}`, the slice runs from
      one to the other and some `}` does not precede some `{`. */
  lemma SpanWhenOrdered(text: string, start: int, end: int, v: string)
    requires FirstAt(text, '{', start) && LastAt(text, '}', end - 1)
    requires start < end && v == text[start..end]
    ensures OutermostAt(text, v, start)
    ensures v != [] && v[0] == '{' && v[|v| - 1] == '}'
    ensures !(forall i, j :: 0 <= i < |text| && 0 <= j < |text| && text[i] == '{' && text[j] == '}' ==> j < i)
  {
    assert start + |v| == end;
    forall m | 0 <= m < start ensures text[..start][m] != '{' {
      assert text[..start][m] == text[m];
    }
    forall m | 0 <= m < |text| - end ensures text[end..][m] != '}' {
      assert text[end..][m] == text[end + m];
    }
    var i, j := start, end - 1;
    assert text[i] == '{' && text[j] == '}' && !(j < i);
  }

  /** When the last `}` comes before the first `{`, every `}` comes before every `{`. */
  lemma SpanEmptyWhenCrossed(text: string, start: int, end: int)
    requires FirstAt(text, '{', start) && LastAt(text, '}', end - 1)
    requires start >= end
    ensures forall i, j :: 0 <= i < |text| && 0 <= j < |text| && text[i] == '{' && text[j] == '}' ==> j < i
  {
  }

  /** The keys of an analysis response. */
  const ResultKeys: set<string> := {"matched_skills", "missing_skills", "score"}

  /** The value a result key takes when the model left it out. */
  function KeyDefault(key: string): Json {
    if key == "score" then JNumber(0.0) else JArray([])
  }

  /** The analysis response: exactly the three result keys, each the model's
      value when present (whatever its type) and its default otherwise; every
      other key of the model's object is dropped. */
  function Normalize(fields: map<string, Json>): (r: map<string, Json>)
    ensures r.Keys == ResultKeys
    ensures forall key :: key in ResultKeys && key in fields ==> r[key] == fields[key]
    ensures forall key :: key in ResultKeys && key !in fields ==> r[key] == KeyDefault(key)
  {
    map[
      "matched_skills" := GetOrDefault(fields, "matched_skills", JArray([])),
      "missing_skills" := GetOrDefault(fields, "missing_skills", JArray([])),
      "score" := GetOrDefault(fields, "score", JNumber(0.0))]
  }

  /** Normalising a normalised result changes nothing. */
  lemma NormalizeIdempotent(fields: map<string, Json>)
    ensures Normalize(Normalize(fields)) == Normalize(fields)
  {
    var once := Normalize(fields);
    assert Normalize(once).Keys == once.Keys;
  }

  /** What happens to the model's reply inside the `try`: any failure (the
      call, a missing brace, the parse, a parsed value that is not a dict)
      becomes the fixed 500; otherwise the normalised object with status 200. */
  function ProcessReply(reply: Option<string>, parse: string -> Option<Json>): (resp: Response)
    ensures resp.JsonResponse?
    ensures resp.status == 200 || resp == ErrorResponse(500, ProcessingFailed)
    ensures resp.status == 200 <==>
      reply.Some? && JsonSpan(reply.value).Some? && parse(JsonSpan(reply.value).value).Some?
      && parse(JsonSpan(reply.value).value).value.JObject?
    ensures resp.status == 200 ==> resp.body == JObject(Normalize(parse(JsonSpan(reply.value).value).value.fields))
  {
    if reply.None? then ErrorResponse(500, ProcessingFailed)
    else match JsonSpan(reply.value)
      case None => ErrorResponse(500, ProcessingFailed)
      case Some(span) =>
        match parse(span)
        case Some(JObject(fields)) => JsonResponse(200, JObject(Normalize(fields)))
        case _ => ErrorResponse(500, ProcessingFailed)
  }

  /** `analyze_skills`. An uninitialised model yields 500 before any input is
      examined; then the inputs are selected in order; only with both texts in
      hand is the model asked, with exactly those texts. */
  function AnalyzeSkills(ready: bool, req: Request, ask: (string, string) -> Option<string>,
                         parse: string -> Option<Json>): (resp: Response)
    ensures resp.JsonResponse?
    ensures !ready ==> resp == ErrorResponse(500, NotInitialised)
    ensures ready && SelectInputs(req).Err? ==> resp == SelectInputs(req).error && resp.status == 400
    ensures ready && SelectInputs(req).Ok? ==>
      resp == ProcessReply(ask(SelectInputs(req).value.0, SelectInputs(req).value.1), parse)
    ensures resp.status == 200 ==> resp.body.JObject? && resp.body.fields.Keys == ResultKeys
  {
    if !ready then ErrorResponse(500, NotInitialised)
    else match SelectInputs(req)
      case Err(e) => e
      case Ok((resume, jd)) => ProcessReply(ask(resume, jd), parse)
  }

  /** A request rejected by input validation gets the same response whatever
      the model would have said: the model is not consulted. */
  lemma RejectedInputIgnoresModel(req: Request, ask1: (string, string) -> Option<string>,
                                  ask2: (string, string) -> Option<string>, parse: string -> Option<Json>)
    requires SelectInputs(req).Err?
    ensures AnalyzeSkills(true, req, ask1, parse) == AnalyzeSkills(true, req, ask2, parse)
  {
  }

  /** A request missing both inputs is told about the resume. */
  lemma MissingBothReportsResume(req: Request, ask: (string, string) -> Option<string>, parse: string -> Option<Json>)
    requires "resume_pdf" !in req.files && "resume_text" !in req.form
    requires "jd_pdf" !in req.files && "jd_text" !in req.form
    ensures AnalyzeSkills(true, req, ask, parse) == ErrorResponse(400, "Resume (either PDF or text) is required.")
  {
  }

  /** An uploaded PDF wins over pasted text for the same input, even when its
      extraction fails and the text would have been usable. */
  lemma PdfTakesPrecedence(req: Request, side: Side)
    requires side.pdfKey in req.files && side.textKey in req.form
    ensures ReadSide(req, side).Ok? ==> req.files[side.pdfKey] == Some(ReadSide(req, side).value)
    ensures req.files[side.pdfKey].None? ==> ReadSide(req, side) == Err(ErrorResponse(400, side.unreadable))
  {
  }
}

=== FILE: bridge.dfy ===
/**
 * How the browser's multipart form reaches the server: the entries the page
 * posts become the request the analysis endpoint reads, and a form that
 * passed the page's validation also passes the server's, except for a PDF
 * whose text cannot be extracted.
 */
module Bridge {
  import opened Wrappers
  import opened Text
  import Submission
  import Analyze

  /** No earlier entry of the same kind (file or text) uses the key of entry `i`. */
  predicate FirstWithKey(form: seq<Submission.Entry>, i: nat)
    requires i < |form|
  {
    forall j :: 0 <= j < i ==> !(form[j].key == form[i].key && form[j].part.PdfPart? == form[i].part.PdfPart?)
  }

  /** What a request records of a form: each file entry's key in
      `request.files` holding the text extracted from that file, each text
      entry's key in `request.form` holding its value with line breaks made
      CRLF (the first entry of a kind wins for a repeated key), and no key
      that no entry of that kind supplied. */
  predicate Records(form: seq<Submission.Entry>, extract: Submission.File -> Option<string>, req: Analyze.Request) {
    && (forall i :: 0 <= i < |form| && form[i].part.PdfPart? ==> form[i].key in req.files)
    && (forall i :: 0 <= i < |form| && form[i].part.TextPart? ==> form[i].key in req.form)
    && (forall i :: 0 <= i < |form| && form[i].part.PdfPart? && FirstWithKey(form, i) ==>
          req.files[form[i].key] == extract(form[i].part.file))
    && (forall i :: 0 <= i < |form| && form[i].part.TextPart? && FirstWithKey(form, i) ==>
          req.form[form[i].key] == NormalizeNewlines(form[i].part.text))
    && (forall key :: key in req.files ==> exists i :: 0 <= i < |form| && form[i].key == key && form[i].part.PdfPart?)
    && (forall key :: key in req.form ==> exists i :: 0 <= i < |form| && form[i].key == key && form[i].part.TextPart?)
  }

  /** The request the server sees for a posted form: file parts land in
      `request.files` as the text extracted from them, text parts in
      `request.form` after the multipart encoding has turned every bare line
      break into CRLF; for a key repeated within one kind the first entry wins. */
  function ToRequest(form: seq<Submission.Entry>, extract: Submission.File -> Option<string>): (req: Analyze.Request)
    ensures Records(form, extract, req)
    decreases |form|
  {
    if |form| == 0 then Analyze.Request(map[], map[])
    else
      var rest := ToRequest(form[1..], extract);
      var req := Prepend(form[0], extract, rest);
      PrependRecords(form, extract, rest);
      req
  }

  /** The request after entry `e` is put in front: it takes its key first within its kind. */
  function Prepend(e: Submission.Entry, extract: Submission.File -> Option<string>, rest: Analyze.Request): Analyze.Request {
    match e.part
    case PdfPart(f) => rest.(files := rest.files[e.key := extract(f)])
    case TextPart(t) => rest.(form := rest.form[e.key := NormalizeNewlines(t)])
  }

  /** Putting an entry in front of a form keeps what the rest of the form
      recorded, except where the new entry takes the key first. */
  lemma PrependRecords(form: seq<Submission.Entry>, extract: Submission.File -> Option<string>, rest: Analyze.Request)
    requires |form| > 0 && Records(form[1..], extract, rest)
    ensures Records(form, extract, Prepend(form[0], extract, rest))
  {
    PrependKeepsValues(form, extract, rest);
    PrependKeepsOrigins(form, extract, rest);
  }

  lemma PrependKeepsValues(form: seq<Submission.Entry>, extract: Submission.File -> Option<string>, rest: Analyze.Request)
    requires |form| > 0 && Records(form[1..], extract, rest)
    ensures var req := Prepend(form[0], extract, rest);
      && (forall i :: 0 <= i < |form| && form[i].part.PdfPart? ==> form[i].key in req.files)
      && (forall i :: 0 <= i < |form| && form[i].part.TextPart? ==> form[i].key in req.form)
      && (forall i :: 0 <= i < |form| && form[i].part.PdfPart? && FirstWithKey(form, i) ==>
            req.files[form[i].key] == extract(form[i].part.file))
      && (forall i :: 0 <= i < |form| && form[i].part.TextPart? && FirstWithKey(form, i) ==>
            req.form[form[i].key] == NormalizeNewlines(form[i].part.text))
  {
    forall i | 1 <= i < |form|
      ensures form[i] == form[1..][i - 1]
      ensures FirstWithKey(form, i) ==> FirstWithKey(form[1..], i - 1)
    {
    }
  }

  lemma PrependKeepsOrigins(form: seq<Submission.Entry>, extract: Submission.File -> Option<string>, rest: Analyze.Request)
    requires |form| > 0 && Records(form[1..], extract, rest)
    ensures var req := Prepend(form[0], extract, rest);
      && (forall key :: key in req.files ==> exists i :: 0 <= i < |form| && form[i].key == key && form[i].part.PdfPart?)
      && (forall key :: key in req.form ==> exists i :: 0 <= i < |form| && form[i].key == key && form[i].part.TextPart?)
  {
    var req := Prepend(form[0], extract, rest);
    forall key | key in req.files
      ensures exists i :: 0 <= i < |form| && form[i].key == key && form[i].part.PdfPart?
    {
      if !(key == form[0].key && form[0].part.PdfPart?) {
        var j :| 0 <= j < |form[1..]| && form[1..][j].key == key && form[1..][j].part.PdfPart?;
        assert form[j + 1] == form[1..][j];
      }
    }
    forall key | key in req.form
      ensures exists i :: 0 <= i < |form| && form[i].key == key && form[i].part.TextPart?
    {
      if !(key == form[0].key && form[0].part.TextPart?) {
        var j :| 0 <= j < |form[1..]| && form[1..][j].key == key && form[1..][j].part.TextPart?;
        assert form[j + 1] == form[1..][j];
      }
    }
  }

  /** The text the server ends up with for a validated group: the textarea
      value with its line breaks made CRLF in text mode, the extraction of
      the file in pdf mode. */
  function ServerText(g: Submission.GroupInput, extract: Submission.File -> Option<string>): Option<string>
    requires Submission.Ready(g)
  {
    if Submission.IsPdfMode(g) then extract(g.file.value) else Some(NormalizeNewlines(g.text))
  }

  /** A form the page posts is accepted by the server's input selection
      exactly when every uploaded PDF yields non-empty text, and the server
      then works on the extracted text or the untrimmed typed text, with only
      its line breaks rewritten by the encoding. */
  lemma PostedFormMeetsServer(resume: Submission.GroupInput, jd: Submission.GroupInput,
                              extract: Submission.File -> Option<string>)
    requires Submission.Validate(resume, jd).Posted?
    ensures var req := ToRequest(Submission.Validate(resume, jd).form, extract);
      && (Analyze.SelectInputs(req).Ok? <==>
            ServerText(resume, extract).Some? && ServerText(resume, extract).value != ""
            && ServerText(jd, extract).Some? && ServerText(jd, extract).value != "")
      && (Analyze.SelectInputs(req).Ok? ==>
            Analyze.SelectInputs(req).value == (ServerText(resume, extract).value, ServerText(jd, extract).value))
  {
    var form := Submission.Validate(resume, jd).form;
    var req := ToRequest(form, extract);
    assert Records(form, extract, req);
    assert FirstWithKey(form, 0) && FirstWithKey(form, 1);
    ServerSideRead(form, extract, req, 0, resume, Analyze.ResumeSide);
    ServerSideRead(form, extract, req, 1, jd, Analyze.JdSide);
  }

  /** The server reads back, for one side, exactly what the page's entry for
      that side sent. */
  lemma ServerSideRead(form: seq<Submission.Entry>, extract: Submission.File -> Option<string>,
                       req: Analyze.Request, i: nat, g: Submission.GroupInput, side: Analyze.Side)
    requires Records(form, extract, req) && i < |form| && FirstWithKey(form, i)
    requires Submission.Ready(g)
    requires form[i] == (if Submission.IsPdfMode(g) then Submission.Entry(side.pdfKey, Submission.PdfPart(g.file.value))
                         else Submission.Entry(side.textKey, Submission.TextPart(g.text)))
    requires forall j :: 0 <= j < |form| && j != i ==> form[j].key != side.pdfKey && form[j].key != side.textKey
    requires side.pdfKey != side.textKey
    ensures Analyze.Supplied(req, side) <==> ServerText(g, extract).Some? && ServerText(g, extract).value != ""
    ensures Analyze.Supplied(req, side) ==> Analyze.ReadSide(req, side).value == ServerText(g, extract).value
  {
    if Submission.IsPdfMode(g) {
      assert side.pdfKey in req.files;
    } else {
      assert g.text != "";
      assert side.pdfKey !in req.files;
      assert side.textKey in req.form;
    }
  }
}

=== FILE: file_picker.dfy ===
/**
 * The file input of one group with its name label and clear button
 * (`setupFileInput` in frontend/script.js).
 */
module FilePicker {
  import opened Wrappers
  import opened Submission

  const NoFileLabel := "No file selected"

  /** The selected files, the label text, whether the label is italic, and
      whether the clear button carries class `hidden`. */
  datatype FileInput = FileInput(files: seq<File>, shownName: string, italic: bool, clearHidden: bool)

  /** The shownName and clear button describe the selection: the first file's name
      in normal style with the clear button shown, or the italic placeholder
      with the clear button hidden. */
  predicate Shows(f: FileInput) {
    if |f.files| > 0 then f.shownName == f.files[0].name && !f.italic && !f.clearHidden
    else f.shownName == NoFileLabel && f.italic && f.clearHidden
  }

  /** The `change` listener: re-renders shownName and clear button from the selection. */
  function OnChange(f: FileInput): (r: FileInput)
    ensures r.files == f.files
    ensures Shows(r)
  {
    if |f.files| > 0 then f.(shownName := f.files[0].name, italic := false, clearHidden := false)
    else f.(shownName := NoFileLabel, italic := true, clearHidden := true)
  }

  /** The user picks `files` in the browser's dialog, which fires `change`. */
  function Pick(f: FileInput, files: seq<File>): (r: FileInput)
    ensures r.files == files
    ensures Shows(r)
  {
    OnChange(f.(files := files))
  }

  /** The clear button: empties the input's value and dispatches `change`
      itself, so the shownName goes through the same listener. */
  function Clear(f: FileInput): (r: FileInput)
    ensures r == FileInput([], NoFileLabel, true, true)
  {
    OnChange(f.(files := []))
  }

  /** Clearing twice is the same as clearing once. */
  lemma ClearIdempotent(f: FileInput)
    ensures Clear(Clear(f)) == Clear(f)
  {
  }

  /** What the validator reads: `fileInput.files[0]`. */
  function FirstFile(f: FileInput): Option<File> {
    if |f.files| > 0 then Some(f.files[0]) else None
  }

  /** The input as the page loads, before any selection. */
  const Empty := FileInput([], NoFileLabel, true, true)
}

=== FILE: json_value.dfy ===
/**
 * JSON values as both programs see them after parsing, with the two notions
 * of truthiness the code branches on: JavaScript's (`!x`, `x || y`) in the
 * browser and Python's (`not x`) in the server.
 */
module JsonValue {
  import opened Wrappers

  /** A parsed JSON value. Numbers are kept as exact reals. */
  datatype Json =
    | JNull
    | JBool(b: bool)
    | JNumber(n: real)
    | JString(s: string)
    | JArray(items: seq<Json>)
    | JObject(fields: map<string, Json>)

  /** Member lookup `j[key]` / `j.key`: present only on an object that has the key.
      On any other value it is JavaScript's `undefined`. */
  function Member(j: Json, key: string): Option<Json> {
    if j.JObject? && key in j.fields then Some(j.fields[key]) else None
  }

  /** Python `d.get(key, default)` on a dict: the same lookup the browser does
      on the same object, with `default` standing in for `undefined`. */
  function GetOrDefault(fields: map<string, Json>, key: string, default: Json): (r: Json)
    ensures r == Member(JObject(fields), key).GetOr(default)
    ensures key in fields ==> r == fields[key]
    ensures key !in fields ==> r == default
  {
    if key in fields then fields[key] else default
  }

  /** JavaScript truthiness of a JSON value: only null, false, 0 and "" are falsy. */
  predicate JsTruthy(j: Json) {
    match j
    case JNull => false
    case JBool(b) => b
    case JNumber(n) => n != 0.0
    case JString(s) => s != ""
    case JArray(_) => true
    case JObject(_) => true
  }

  /** Python truthiness of a JSON value: empty containers are falsy as well. */
  predicate PyTruthy(j: Json) {
    match j
    case JNull => false
    case JBool(b) => b
    case JNumber(n) => n != 0.0
    case JString(s) => s != ""
    case JArray(items) => items != []
    case JObject(fields) => fields != map[]
  }

  /** JavaScript `!x` for a possibly missing member (`undefined` is falsy). */
  predicate JsPresentTruthy(x: Option<Json>) {
    x.Some? && JsTruthy(x.value)
  }
}

=== FILE: page.dfy ===
/**
 * The page controller of frontend/script.js as a state machine over an
 * immutable page record: the analyze flow with its busy state and `finally`
 * cleanup, `displayResults`, and the PDF export guarded by `currentResults`.
 */
module Page {
  import opened Wrappers
  import opened Text
  import opened JsonValue
  import opened Submission
  import Tabs
  import FilePicker

  /** One input group: its tab bar, its file input and its textarea value. */
  datatype Group = Group(tabs: Tabs.TabGroup, picker: FilePicker.FileInput, text: string)

  /** Everything the script reads or writes: both groups, the analyze button's
      text and `disabled` flag, which of spinner, results, placeholder and
      export button carry class `hidden`, and `currentResults`. */
  datatype PageState = PageState(
    resume: Group,
    jd: Group,
    buttonText: string,
    spinnerHidden: bool,
    analyzeDisabled: bool,
    resultsHidden: bool,
    placeholderHidden: bool,
    exportHidden: bool,
    currentResults: Json)

  const IdleText := "Analyze"
  const BusyText := "Analyzing..."
  const NoResultsNotice := "Please run an analysis first."
  const ReportTitle := "AI Resume Analysis Report"
  const ReportFileName := "AI_Resume_Analysis_Report.pdf"

  /** How the `fetch` of the analysis settles: it throws (network failure, or a
      body that is not JSON) with some message, or yields a status and a JSON body. */
  datatype Reply = Threw(message: string) | Received(status: nat, body: Json)

  /** `response.ok`. */
  predicate IsOk(status: nat) {
    200 <= status <= 299
  }

  /** The `message` of the error the catch block reports. `ServerValue` is a
      truthy non-string `error` field, shown through JavaScript's `String`;
      `ScriptTypeError` is a TypeError raised by the script itself, whose
      message the engine chooses. */
  datatype Failure = Message(text: string) | ServerValue(error: Json) | ScriptTypeError

  /** A blocking `alert`: a fixed notice, or "An error occurred: <message>". */
  datatype Alert = Notice(text: string) | ErrorOccurred(cause: Failure)

  /** What an event does outside the page record. */
  datatype Effect = NoEffect | Alerts(alert: Alert) | Posts(form: seq<Entry>) | Downloads(report: Report)

  /** A page record together with the effect that produced it. */
  datatype Step = Step(page: PageState, effect: Effect)

  /** The generated PDF: title, the `score` member (`undefined` when absent),
      one row per matched and per missing skill, and the download name. */
  datatype Report = Report(title: string, score: Option<Json>, matchedRows: seq<Json>, missingRows: seq<Json>, fileName: string)

  /** What the export handler does. */
  datatype ExportOutcome = Refused(notice: string) | Saved(report: Report) | ExportTypeError

  /** "HTTP error! status: <status>", the status written as a template literal
      writes it: decimal digits without leading zeros. */
  function HttpErrorMessage(status: nat): (m: string)
    ensures |m| > 20 && m[..20] == "HTTP error! status: "
    ensures IsDigits(m[20..])
    ensures ParseDecimal(m[20..]) == status
    ensures m[20] == '0' ==> m[20..] == "0"
  {
    DecimalRoundTrip(status);
    var m := "HTTP error! status: " + Decimal(status);
    assert m[20..] == Decimal(status);
    m
  }

  /** The error thrown for a non-ok response: `result.error` when truthy, else
      the HTTP status text; reading `error` off a `null` body is a TypeError. */
  function ErrorOf(status: nat, body: Json): (f: Failure)
    ensures body == JNull ==> f == ScriptTypeError
    ensures body != JNull && !JsPresentTruthy(Member(body, "error")) ==> f == Message(HttpErrorMessage(status))
    ensures JsPresentTruthy(Member(body, "error")) && body.fields["error"].JString? ==> f == Message(body.fields["error"].s)
    ensures JsPresentTruthy(Member(body, "error")) && !body.fields["error"].JString? ==> f == ServerValue(body.fields["error"])
  {
    if body == JNull then ScriptTypeError
    else
      var e := Member(body, "error");
      if JsPresentTruthy(e) then
        if e.value.JString? then Message(e.value.s) else ServerValue(e.value)
      else Message(HttpErrorMessage(status))
  }

  /** A value `displayResults` and the export can walk: an object whose
      `matched_skills` and `missing_skills` are arrays. */
  predicate Reportable(j: Json) {
    && j.JObject?
    && "matched_skills" in j.fields && j.fields["matched_skills"].JArray?
    && "missing_skills" in j.fields && j.fields["missing_skills"].JArray?
  }

  /** What the validator reads of a group. */
  function Input(g: Group): GroupInput {
    GroupInput(g.tabs.inputType, FilePicker.FirstFile(g.picker), g.text)
  }

  /** The state entered right before the request is sent. */
  function Busy(p: PageState): PageState {
    p.(buttonText := BusyText, spinnerHidden := false, analyzeDisabled := true,
       resultsHidden := true, exportHidden := true, placeholderHidden := false)
  }

  /** The `finally` block. */
  function Finish(p: PageState): PageState {
    p.(buttonText := IdleText, spinnerHidden := true, analyzeDisabled := false)
  }

  /** The analyze click up to the network call: an invalid form raises its
      alert and leaves the page as it was; a valid one is posted, with the page
      busy, previous results and the export button hidden, and nothing else changed. */
  function AnalyzeClick(p: PageState): (s: Step)
    ensures s.effect.Alerts? || s.effect.Posts?
    ensures s.effect.Posts? <==> Ready(Input(p.resume)) && Ready(Input(p.jd))
    ensures s.effect.Alerts? ==> s.page == p && s.effect.alert == Notice(Validate(Input(p.resume), Input(p.jd)).message)
    ensures s.effect.Posts? ==>
      && s.effect.form == Validate(Input(p.resume), Input(p.jd)).form
      && s.page.analyzeDisabled && !s.page.spinnerHidden && s.page.buttonText == BusyText
      && s.page.resultsHidden && s.page.exportHidden && !s.page.placeholderHidden
      && s.page.resume == p.resume && s.page.jd == p.jd && s.page.currentResults == p.currentResults
  {
    match Validate(Input(p.resume), Input(p.jd))
    case Alerted(message) => Step(p, Alerts(Notice(message)))
    case Posted(form) => Step(Busy(p), Posts(form))
  }

  /** `displayResults(body)`: `currentResults` is written first, whatever the
      body; the results and the export button are shown only when the skill
      lists can be walked, otherwise the walk throws a TypeError. */
  function DisplayResults(p: PageState, body: Json): (r: PageState)
    ensures r.currentResults == body
    ensures Reportable(body) ==> !r.exportHidden && !r.resultsHidden && r.placeholderHidden
    ensures !Reportable(body) ==> r == p.(currentResults := body)
    ensures r.resume == p.resume && r.jd == p.jd
    ensures r.buttonText == p.buttonText && r.spinnerHidden == p.spinnerHidden && r.analyzeDisabled == p.analyzeDisabled
  {
    var q := p.(currentResults := body);
    if Reportable(body) then q.(placeholderHidden := true, resultsHidden := false, exportHidden := false) else q
  }

  /** The settling of the analysis request, `finally` included. Every exit
      path ends with the button enabled, labelled "Analyze" and the spinner
      hidden; an alert is raised on every path except a successful display;
      `currentResults` and the export button change only through `displayResults`. */
  function Settle(p: PageState, reply: Reply): (s: Step)
    ensures s.page.buttonText == IdleText && s.page.spinnerHidden && !s.page.analyzeDisabled
    ensures s.page.resume == p.resume && s.page.jd == p.jd
    ensures s.effect.NoEffect? || s.effect.Alerts?
    ensures s.effect.NoEffect? <==> reply.Received? && IsOk(reply.status) && Reportable(reply.body)
    ensures reply.Threw? ==> s.effect == Alerts(ErrorOccurred(Message(reply.message)))
    ensures reply.Received? && !IsOk(reply.status) ==> s.effect == Alerts(ErrorOccurred(ErrorOf(reply.status, reply.body)))
    ensures reply.Received? && IsOk(reply.status) && !Reportable(reply.body) ==> s.effect == Alerts(ErrorOccurred(ScriptTypeError))
    ensures reply.Received? && IsOk(reply.status) ==> s.page.currentResults == reply.body
    ensures !(reply.Received? && IsOk(reply.status)) ==> s.page.currentResults == p.currentResults
    ensures s.page.exportHidden != p.exportHidden ==> reply.Received? && IsOk(reply.status) && Reportable(reply.body) && !s.page.exportHidden
    ensures reply.Received? && IsOk(reply.status) && Reportable(reply.body) ==>
      !s.page.exportHidden && !s.page.resultsHidden && s.page.placeholderHidden
    ensures !(reply.Received? && IsOk(reply.status) && Reportable(reply.body)) ==>
      && s.page.exportHidden == p.exportHidden
      && s.page.resultsHidden == p.resultsHidden
      && s.page.placeholderHidden == p.placeholderHidden
  {
    match reply
    case Threw(message) => Step(Finish(p), Alerts(ErrorOccurred(Message(message))))
    case Received(status, body) =>
      if !IsOk(status) then Step(Finish(p), Alerts(ErrorOccurred(ErrorOf(status, body))))
      else
        var q := DisplayResults(p, body);
        Step(Finish(q), if Reportable(body) then NoEffect else Alerts(ErrorOccurred(ScriptTypeError)))
  }

  /** The export handler: refused with a notice while `currentResults` is
      falsy; otherwise a report of the score and both skill lists, in order,
      saved under the fixed name, unless a list is not an array (TypeError,
      nothing saved). */
  function Export(p: PageState): (o: ExportOutcome)
    ensures o.Refused? <==> !JsTruthy(p.currentResults)
    ensures o.Refused? ==> o.notice == NoResultsNotice
    ensures o.Saved? <==> JsTruthy(p.currentResults) && Reportable(p.currentResults)
    ensures o.Saved? ==>
      && o.report.title == ReportTitle && o.report.fileName == ReportFileName
      && o.report.score == Member(p.currentResults, "score")
      && o.report.matchedRows == p.currentResults.fields["matched_skills"].items
      && o.report.missingRows == p.currentResults.fields["missing_skills"].items
  {
    var c := p.currentResults;
    if !JsTruthy(c) then Refused(NoResultsNotice)
    else if Reportable(c) then
      Saved(Report(ReportTitle, Member(c, "score"), c.fields["matched_skills"].items, c.fields["missing_skills"].items, ReportFileName))
    else ExportTypeError
  }

  /** Which input group an event addresses. */
  datatype Which = ResumeGroup | JdGroup

  /** The user and network events the script reacts to. */
  datatype Event =
    | TabClicked(which: Which, index: nat)
    | FilesPicked(which: Which, files: seq<File>)
    | ClearClicked(which: Which)
    | Typed(which: Which, text: string)
    | AnalyzeClicked
    | ReplyArrived(reply: Reply)
    | ExportClicked

  function GroupOf(p: PageState, w: Which): Group {
    if w == ResumeGroup then p.resume else p.jd
  }

  function WithGroup(p: PageState, w: Which, g: Group): PageState {
    if w == ResumeGroup then p.(resume := g) else p.(jd := g)
  }

  /** One event. A disabled analyze button and a hidden export button receive
      no clicks, and a reply only arrives while a request is in flight (the
      analyze button stays disabled exactly that long). A click on a tab the
      bar does not have is ignored, and a TypeError in the export handler
      leaves no trace. Only an enabled analyze click on a valid form posts,
      and the events of one group touch that group alone. */
  function Handle(p: PageState, e: Event): (s: Step)
    ensures s.effect.Posts? <==>
      e.AnalyzeClicked? && !p.analyzeDisabled && Ready(Input(p.resume)) && Ready(Input(p.jd))
    ensures s.effect.Posts? ==> s.effect.form == Validate(Input(p.resume), Input(p.jd)).form
    ensures e.AnalyzeClicked? && p.analyzeDisabled ==> s == Step(p, NoEffect)
    ensures e.ReplyArrived? && !p.analyzeDisabled ==> s == Step(p, NoEffect)
    ensures e.ExportClicked? ==> s.page == p
    ensures e.ExportClicked? ==> (s.effect.Downloads? <==> !p.exportHidden && Export(p).Saved?)
    ensures e.ExportClicked? && (p.exportHidden || Export(p).ExportTypeError?) ==> s.effect.NoEffect?
    ensures e.TabClicked? && e.index >= |GroupOf(p, e.which).tabs.tabs| ==> s == Step(p, NoEffect)
    ensures e.TabClicked? || e.FilesPicked? || e.ClearClicked? || e.Typed? ==>
      s.effect.NoEffect? && s.page == WithGroup(p, e.which, GroupOf(s.page, e.which))
  {
    match e
    case TabClicked(w, i) =>
      var g := GroupOf(p, w);
      if i < |g.tabs.tabs| then Step(WithGroup(p, w, g.(tabs := Tabs.Click(g.tabs, i))), NoEffect)
      else Step(p, NoEffect)
    case FilesPicked(w, files) =>
      var g := GroupOf(p, w);
      Step(WithGroup(p, w, g.(picker := FilePicker.Pick(g.picker, files))), NoEffect)
    case ClearClicked(w) =>
      var g := GroupOf(p, w);
      Step(WithGroup(p, w, g.(picker := FilePicker.Clear(g.picker))), NoEffect)
    case Typed(w, text) =>
      Step(WithGroup(p, w, GroupOf(p, w).(text := text)), NoEffect)
    case AnalyzeClicked =>
      if p.analyzeDisabled then Step(p, NoEffect) else AnalyzeClick(p)
    case ReplyArrived(reply) =>
      if p.analyzeDisabled then Settle(p, reply) else Step(p, NoEffect)
    case ExportClicked =>
      if p.exportHidden then Step(p, NoEffect)
      else
        match Export(p)
        case Refused(notice) => Step(p, Alerts(Notice(notice)))
        case Saved(report) => Step(p, Downloads(report))
        case ExportTypeError => Step(p, NoEffect)
  }

  /** A group between events: a coherent tab bar and a label that describes the selection. */
  predicate GroupCoherent(g: Group) {
    Tabs.Coherent(g.tabs) && FilePicker.Shows(g.picker)
  }

  /** What holds of the page between events: coherent groups; the button is
      either busy (disabled, "Analyzing...", spinner shown, results and export
      hidden) or idle ("Analyze", spinner hidden); and a visible export button
      always has a reportable `currentResults` behind it. */
  predicate Coherent(p: PageState) {
    && GroupCoherent(p.resume) && GroupCoherent(p.jd)
    && (if p.analyzeDisabled
        then p.buttonText == BusyText && !p.spinnerHidden && p.exportHidden && p.resultsHidden
        else p.buttonText == IdleText && p.spinnerHidden)
    && (!p.exportHidden ==> Reportable(p.currentResults))
  }

  /** The page as it loads: both groups in pdf mode (frontend/script.js:31-32)
      with no file and no text, and no result (frontend/script.js:30). The
      rest comes from the markup, which is not part of this model: the button
      reads "Analyze" and is enabled, the spinner, results and export button
      are hidden, the placeholder is shown, and each tab bar is as in
      `Tabs.Initial`. */
  function Initial(): (p: PageState)
    ensures Coherent(p)
    ensures p.resume.tabs.inputType == Some("pdf") && p.jd.tabs.inputType == Some("pdf")
    ensures p.currentResults == JNull && p.exportHidden
    ensures !p.analyzeDisabled && p.buttonText == IdleText && p.spinnerHidden
  {
    var resume := Group(Tabs.Initial("resume"), FilePicker.Empty, "");
    var jd := Group(Tabs.Initial("jd"), FilePicker.Empty, "");
    PageState(resume, jd, IdleText, true, false, true, false, true, JNull)
  }

  /** Every event keeps the page coherent. */
  lemma HandleKeepsCoherent(p: PageState, e: Event)
    requires Coherent(p)
    ensures Coherent(Handle(p, e).page)
  {
    match e
    case TabClicked(w, i) =>
      var g := GroupOf(p, w);
      if i < |g.tabs.tabs| {
        Tabs.ClickKeepsCoherent(g.tabs, i);
        GroupUpdateKeepsCoherent(p, w, g.(tabs := Tabs.Click(g.tabs, i)));
      }
    case FilesPicked(w, files) =>
      var g := GroupOf(p, w);
      GroupUpdateKeepsCoherent(p, w, g.(picker := FilePicker.Pick(g.picker, files)));
    case ClearClicked(w) =>
      var g := GroupOf(p, w);
      GroupUpdateKeepsCoherent(p, w, g.(picker := FilePicker.Clear(g.picker)));
    case Typed(w, text) =>
      GroupUpdateKeepsCoherent(p, w, GroupOf(p, w).(text := text));
    case AnalyzeClicked =>
    case ReplyArrived(reply) =>
    case ExportClicked =>
  }

  /** Replacing one group by a coherent group keeps the page coherent. */
  lemma GroupUpdateKeepsCoherent(p: PageState, w: Which, g: Group)
    requires Coherent(p) && GroupCoherent(g)
    ensures Coherent(WithGroup(p, w, g))
  {
  }

  /** While the export button is visible the export always produces the
      report of the displayed result: the "no result" notice cannot be reached
      through the button. This rests on the page invariant, which holds from
      load only under the markup assumption of `Initial` that the export
      button starts hidden. */
  lemma VisibleExportSaves(p: PageState)
    requires Coherent(p) && !p.exportHidden
    ensures Handle(p, ExportClicked).effect.Downloads?
    ensures Handle(p, ExportClicked).effect.report.matchedRows == p.currentResults.fields["matched_skills"].items
    ensures Handle(p, ExportClicked).effect.report.missingRows == p.currentResults.fields["missing_skills"].items
  {
  }

  /** Only a reply whose body `displayResults` can walk turns the export
      button on, and only events that settle a request write `currentResults`. */
  lemma ExportShownOnlyByDisplay(p: PageState, e: Event)
    ensures var q := Handle(p, e).page;
      && (p.exportHidden && !q.exportHidden ==>
            e.ReplyArrived? && e.reply.Received? && IsOk(e.reply.status) && Reportable(e.reply.body))
      && (q.currentResults != p.currentResults ==>
            e.ReplyArrived? && e.reply.Received? && IsOk(e.reply.status) && q.currentResults == e.reply.body)
  {
  }

  /** Only the reply ends the busy state: while a request is in flight every
      other event leaves the analyze button disabled, its busy text and the
      spinner in place, and none of them posts a second form. */
  lemma BusyUntilReply(p: PageState, e: Event)
    requires p.analyzeDisabled && !e.ReplyArrived?
    ensures Handle(p, e).page.analyzeDisabled
    ensures Handle(p, e).page.buttonText == p.buttonText && Handle(p, e).page.spinnerHidden == p.spinnerHidden
    ensures !Handle(p, e).effect.Posts?
  {
  }

  /** In pdf mode the validator accepts a group exactly when the group's clear
      button is shown: what the label tells the user and what the analyze
      click checks agree. */
  lemma PdfReadyIffClearShown(g: Group)
    requires GroupCoherent(g) && g.tabs.inputType == Some("pdf")
    ensures Ready(Input(g)) <==> !g.picker.clearHidden
  {
  }
}

=== FILE: skill_info.dfy ===
/**
 * The `/api/skill_info` endpoint of backend/app.py (`get_skill_info`). Unlike
 * the analysis endpoint it slices the model's reply without checking that the
 * braces were found, so the slice follows Python's rules for a bound of -1.
 * `ask` stands for the language model (given the skill value, `None` when the
 * call raises) and `parse` for `json.loads`.
 */
module SkillInfo {
  import opened Wrappers
  import opened Text
  import opened JsonValue
  import opened Analyze

  const SkillNotInitialised := "Google Gemini client not initialized."
  const NameRequired := "Skill name is required."
  const LookupFailed := "Failed to get skill information from AI."

  /** `data.get('skill')` is truthy in Python's sense. */
  predicate HasSkillName(data: Json) {
    data.JObject? && "skill" in data.fields && PyTruthy(data.fields["skill"])
  }

  /** `text[text.find('{'):text.rfind('}') + 1]` with no guard. */
  function SkillSlice(text: string): string {
    PySlice(text, Find(text, '{'), RFind(text, '}') + 1)
  }

  /** When a brace is missing, the unguarded slice is "" or "}": a -1 start
      wraps to the last character, which is kept only if it is the last `}`. */
  lemma UnguardedSliceWhenBraceMissing(text: string)
    requires '{' !in text || '}' !in text
    ensures SkillSlice(text) == "" || SkillSlice(text) == "}"
  {
    var s := SkillSlice(text);
    var end := RFind(text, '}') + 1;
    if Find(text, '{') == -1 && end > 0 && |text| - 1 < end {
      assert end == |text|;
      assert s == text[|text| - 1..|text|];
      assert s == [text[|text| - 1]];
    }
  }

  /** When both braces are present the unguarded slice is the guarded span. */
  lemma UnguardedSliceWhenBracesPresent(text: string)
    requires '{' in text && '}' in text
    ensures JsonSpan(text) == Some(SkillSlice(text))
  {
  }

  /** `get_skill_info`. An uninitialised model yields 500 first. A request body
      that is not a JSON object makes `data.get` raise outside the `try`. An
      absent or falsy `skill` is rejected with 400 before the model is asked;
      otherwise the parsed reply is returned as it is, without key filtering,
      and any failure on the way becomes the fixed 500. */
  function GetSkillInfo(ready: bool, data: Json, ask: Json -> Option<string>, parse: string -> Option<Json>): (resp: Response)
    ensures !ready ==> resp == ErrorResponse(500, SkillNotInitialised)
    ensures ready && !data.JObject? ==> resp == UnhandledError
    ensures ready && data.JObject? && !HasSkillName(data) ==> resp == ErrorResponse(400, NameRequired)
    ensures resp.JsonResponse? && resp.status == 200 ==>
      && HasSkillName(data)
      && var reply := ask(data.fields["skill"]);
         reply.Some? && parse(SkillSlice(reply.value)) == Some(resp.body)
    ensures ready && HasSkillName(data) ==>
      resp == ErrorResponse(500, LookupFailed) || (resp.JsonResponse? && resp.status == 200)
    ensures ready && HasSkillName(data) ==>
      ((resp.JsonResponse? && resp.status == 200) <==>
         ask(data.fields["skill"]).Some? && parse(SkillSlice(ask(data.fields["skill"]).value)).Some?)
  {
    if !ready then ErrorResponse(500, SkillNotInitialised)
    else if !data.JObject? then UnhandledError
    else
      var skill := GetOrDefault(data.fields, "skill", JNull);
      if !PyTruthy(skill) then ErrorResponse(400, NameRequired)
      else match ask(skill)
        case None => ErrorResponse(500, LookupFailed)
        case Some(text) =>
          match parse(SkillSlice(text))
          case None => ErrorResponse(500, LookupFailed)
          case Some(j) => JsonResponse(200, j)
  }

  /** Reference definition: the same endpoint with the analysis endpoint's
      "no JSON object" guard in front of the slice. */
  function GetSkillInfoGuarded(ready: bool, data: Json, ask: Json -> Option<string>, parse: string -> Option<Json>): Response {
    if !ready then ErrorResponse(500, SkillNotInitialised)
    else if !data.JObject? then UnhandledError
    else
      var skill := GetOrDefault(data.fields, "skill", JNull);
      if !PyTruthy(skill) then ErrorResponse(400, NameRequired)
      else match ask(skill)
        case None => ErrorResponse(500, LookupFailed)
        case Some(text) =>
          match JsonSpan(text)
          case None => ErrorResponse(500, LookupFailed)
          case Some(span) =>
            match parse(span)
            case None => ErrorResponse(500, LookupFailed)
            case Some(j) => JsonResponse(200, j)
  }

  /** The missing guard is harmless for any parser that rejects "" and "}",
      as `json.loads` does: the endpoint answers exactly as the guarded one. */
  lemma MissingGuardIsHarmless(ready: bool, data: Json, ask: Json -> Option<string>, parse: string -> Option<Json>)
    requires parse("") == None && parse("}") == None
    ensures GetSkillInfo(ready, data, ask, parse) == GetSkillInfoGuarded(ready, data, ask, parse)
  {
    if ready && data.JObject? {
      var skill := GetOrDefault(data.fields, "skill", JNull);
      if PyTruthy(skill) && ask(skill).Some? {
        var text := ask(skill).value;
        if '{' in text && '}' in text {
          UnguardedSliceWhenBracesPresent(text);
        } else {
          UnguardedSliceWhenBraceMissing(text);
        }
      }
    }
  }

  /** A falsy skill name is rejected whatever the model would have said. */
  lemma RejectedSkillIgnoresModel(data: Json, ask1: Json -> Option<string>, ask2: Json -> Option<string>,
                                  parse: string -> Option<Json>)
    requires data.JObject? && !HasSkillName(data)
    ensures GetSkillInfo(true, data, ask1, parse) == GetSkillInfo(true, data, ask2, parse)
  {
  }
}

=== FILE: submission.dfy ===
/**
 * The analyze-button validator of the page script (frontend/script.js):
 * from the two input groups it either raises exactly one alert or builds the
 * multipart form that is posted to the analysis endpoint.
 */
module Submission {
  import opened Wrappers
  import opened Text

  /** A file chosen in a file input: an opaque identity standing for its
      contents, and its name, the only part the script itself reads. */
  datatype File = File(id: nat, name: string)

  /** What the validator reads of one input group: the active input type as
      last written by a tab click (`None` is JavaScript `undefined`), the first
      selected file if any, and the raw textarea value. */
  datatype GroupInput = GroupInput(inputType: Option<string>, file: Option<File>, text: string)

  /** One part of the multipart form. */
  datatype Part = PdfPart(file: File) | TextPart(text: string)

  /** One `formData.append(key, part)`. */
  datatype Entry = Entry(key: string, part: Part)

  /** What a click on the analyze button does before any network traffic:
      raise one alert and stop, or post the form. */
  datatype Outcome = Alerted(message: string) | Posted(form: seq<Entry>)

  /** The form keys and alert texts of one group. */
  datatype Side = Side(pdfKey: string, textKey: string, noFile: string, noText: string)

  const ResumeSide := Side("resume_pdf", "resume_text", "Please upload your resume PDF.", "Please paste your resume text.")
  const JdSide := Side("jd_pdf", "jd_text", "Please upload the job description PDF.", "Please paste the job description text.")

  /** Only the exact string "pdf" selects the file branch; anything else,
      `undefined` included, takes the text branch. */
  predicate IsPdfMode(g: GroupInput) {
    g.inputType == Some("pdf")
  }

  /** Reference definition of an acceptable group: a file in pdf mode, text
      with at least one non-whitespace character otherwise. */
  predicate Ready(g: GroupInput) {
    if IsPdfMode(g) then g.file.Some? else !IsBlank(g.text)
  }

  /** The alert a group that is not ready raises. */
  function Complaint(g: GroupInput, side: Side): string {
    if IsPdfMode(g) then side.noFile else side.noText
  }

  /** Checks one group and produces its form entry, or the alert it raises. */
  function CheckGroup(g: GroupInput, side: Side): (r: Result<Entry, string>)
    ensures r.Ok? <==> Ready(g)
    ensures r.Err? ==> r.error == Complaint(g, side)
    ensures r.Ok? && IsPdfMode(g) ==> r.value == Entry(side.pdfKey, PdfPart(g.file.value))
    ensures r.Ok? && !IsPdfMode(g) ==> r.value == Entry(side.textKey, TextPart(g.text))
  {
    if IsPdfMode(g) then
      if g.file.None? then Err(side.noFile) else Ok(Entry(side.pdfKey, PdfPart(g.file.value)))
    else
      if Trim(g.text) == [] then Err(side.noText) else Ok(Entry(side.textKey, TextPart(g.text)))
  }

  /** The analyze-click validation: the resume group is checked first and the
      first failure stops everything, so at most one alert is raised and no form
      leaves the page unless both groups are ready. The posted form holds the
      resume entry then the job-description entry, each chosen by its group's
      mode alone; text is sent untrimmed. */
  function Validate(resume: GroupInput, jd: GroupInput): (o: Outcome)
    ensures o.Posted? <==> Ready(resume) && Ready(jd)
    ensures !Ready(resume) ==> o == Alerted(Complaint(resume, ResumeSide))
    ensures Ready(resume) && !Ready(jd) ==> o == Alerted(Complaint(jd, JdSide))
    ensures o.Posted? ==> |o.form| == 2
    ensures o.Posted? ==> o.form[0] == (if IsPdfMode(resume) then Entry("resume_pdf", PdfPart(resume.file.value))
                                        else Entry("resume_text", TextPart(resume.text)))
    ensures o.Posted? ==> o.form[1] == (if IsPdfMode(jd) then Entry("jd_pdf", PdfPart(jd.file.value))
                                        else Entry("jd_text", TextPart(jd.text)))
  {
    match CheckGroup(resume, ResumeSide)
    case Err(message) => Alerted(message)
    case Ok(first) =>
      match CheckGroup(jd, JdSide)
      case Err(message) => Alerted(message)
      case Ok(second) => Posted([first, second])
  }

  /** How many entries of the form carry `key`. */
  function KeyCount(form: seq<Entry>, key: string): nat {
    if |form| == 0 then 0 else (if form[0].key == key then 1 else 0) + KeyCount(form[1..], key)
  }

  /** A posted form carries exactly one resume key and exactly one
      job-description key, and which one is decided by the group's mode. */
  lemma PostedFormHasOneKeyPerGroup(resume: GroupInput, jd: GroupInput)
    requires Ready(resume) && Ready(jd)
    ensures var form := Validate(resume, jd).form;
      && KeyCount(form, "resume_pdf") == (if IsPdfMode(resume) then 1 else 0)
      && KeyCount(form, "resume_text") == (if IsPdfMode(resume) then 0 else 1)
      && KeyCount(form, "jd_pdf") == (if IsPdfMode(jd) then 1 else 0)
      && KeyCount(form, "jd_text") == (if IsPdfMode(jd) then 0 else 1)
  {
    var form := Validate(resume, jd).form;
    forall key: string
      ensures KeyCount(form, key) == (if form[0].key == key then 1 else 0) + (if form[1].key == key then 1 else 0)
    {
      assert KeyCount(form[1..][1..], key) == 0;
      assert KeyCount(form[1..], key) == (if form[1].key == key then 1 else 0);
    }
  }

  /** A text-mode resume whose textarea holds only whitespace stops the
      click with the resume alert, whatever the job-description group holds. */
  lemma BlankTextNeverPosts(resume: GroupInput, jd: GroupInput)
    requires !IsPdfMode(resume) && IsBlank(resume.text)
    ensures Validate(resume, jd) == Alerted("Please paste your resume text.")
  {
  }
}

=== FILE: tabs.dfy ===
/**
 * The tab bar of one input group (`setupTabs` in frontend/script.js): a click
 * moves the `active` class to the clicked tab, records the input type named by
 * the tab's `data-for` attribute, and shows only the matching panel.
 */
module Tabs {
  import opened Wrappers
  import opened Text

  /** A tab button: its `data-for` attribute and whether it has class `active`. */
  datatype Tab = Tab(dataFor: string, active: bool)

  /** The tab bar of a group, the input type last recorded for the group, and
      whether each of the two panels carries class `hidden`. */
  datatype TabGroup = TabGroup(tabs: seq<Tab>, inputType: Option<string>, pdfPanelHidden: bool, textPanelHidden: bool)

  /** `dataFor.split('-')[1]`: the second dash-separated segment, or `undefined`. */
  function InputTypeOf(dataFor: string): Option<string> {
    var parts := Split(dataFor, '-');
    if |parts| >= 2 then Some(parts[1]) else None
  }

  /** For the shape `<prefix>-<kind>` the markup uses, the recorded input type is `kind`. */
  lemma InputTypeOfPrefixed(prefix: string, kind: string)
    requires '-' !in prefix && '-' !in kind
    ensures InputTypeOf(prefix + "-" + kind) == Some(kind)
  {
    SplitPair(prefix, '-', kind);
  }

  /** The tab exactly `i` is active. */
  predicate OnlyActive(tabs: seq<Tab>, i: nat) {
    i < |tabs| && forall j :: 0 <= j < |tabs| ==> (tabs[j].active <==> j == i)
  }

  /** `querySelector('.active')`: the first active tab in document order. */
  function FirstActive(tabs: seq<Tab>): (r: Option<nat>)
    ensures r.None? <==> forall j :: 0 <= j < |tabs| ==> !tabs[j].active
    ensures r.Some? ==> r.value < |tabs| && tabs[r.value].active
    ensures r.Some? ==> forall j :: 0 <= j < r.value ==> !tabs[j].active
  {
    if |tabs| == 0 then None
    else if tabs[0].active then Some(0)
    else
      match FirstActive(tabs[1..])
      case None => None
      case Some(k) => Some(k + 1)
  }

  /** The click handler of tab `i`. With no active tab `querySelector` yields
      null and the handler stops with a TypeError before changing anything.
      Otherwise the first active tab loses the class, tab `i` gains it, the
      group records the clicked tab's input type, and each panel is hidden
      unless its name equals that input type. Every tab is taken to carry a
      `data-for` attribute, as the markup gives it; without one the handler
      would throw after moving the class, a path not represented here. */
  function Click(g: TabGroup, i: nat): (r: TabGroup)
    requires i < |g.tabs|
    ensures FirstActive(g.tabs).None? ==> r == g
    ensures |r.tabs| == |g.tabs|
    ensures forall j :: 0 <= j < |g.tabs| ==> r.tabs[j].dataFor == g.tabs[j].dataFor
    ensures FirstActive(g.tabs).Some? ==>
      && r.tabs[i].active
      && (forall j :: 0 <= j < |g.tabs| && j != i ==>
            r.tabs[j].active == (g.tabs[j].active && j != FirstActive(g.tabs).value))
      && r.inputType == InputTypeOf(g.tabs[i].dataFor)
      && (r.pdfPanelHidden <==> r.inputType != Some("pdf"))
      && (r.textPanelHidden <==> r.inputType != Some("text"))
  {
    match FirstActive(g.tabs)
    case None => g
    case Some(k) =>
      var cleared := g.tabs[k := g.tabs[k].(active := false)];
      var tabs := cleared[i := cleared[i].(active := true)];
      var t := InputTypeOf(g.tabs[i].dataFor);
      TabGroup(tabs, t, t != Some("pdf"), t != Some("text"))
  }

  /** The two input types the page knows. */
  predicate KnownType(t: Option<string>) {
    t == Some("pdf") || t == Some("text")
  }

  /** What holds of a group between clicks: exactly one tab is active, every
      tab names a known input type, the recorded type is known, and the
      panels agree with it. */
  predicate Coherent(g: TabGroup) {
    && FirstActive(g.tabs).Some?
    && OnlyActive(g.tabs, FirstActive(g.tabs).value)
    && (forall j :: 0 <= j < |g.tabs| ==> KnownType(InputTypeOf(g.tabs[j].dataFor)))
    && KnownType(g.inputType)
    && g.pdfPanelHidden == (g.inputType != Some("pdf"))
    && g.textPanelHidden == (g.inputType != Some("text"))
  }

  /** A click keeps the group coherent and leaves the clicked tab as the only
      active one, with the recorded type taken from that tab. */
  lemma ClickKeepsCoherent(g: TabGroup, i: nat)
    requires Coherent(g) && i < |g.tabs|
    ensures Coherent(Click(g, i))
    ensures OnlyActive(Click(g, i).tabs, i)
    ensures Click(g, i).inputType == InputTypeOf(g.tabs[i].dataFor)
  {
    var r := Click(g, i);
    assert OnlyActive(r.tabs, i);
    assert FirstActive(r.tabs) == Some(i) by {
      if i > 0 {
        assert !r.tabs[0].active;
      }
    }
  }

  /** In a coherent group exactly one panel is visible, the one named by the
      recorded input type. */
  lemma CoherentShowsOnePanel(g: TabGroup)
    requires Coherent(g)
    ensures g.pdfPanelHidden != g.textPanelHidden
    ensures !g.pdfPanelHidden <==> g.inputType == Some("pdf")
  {
  }

  /** The group as the page loads: the input type starts as "pdf"; the markup
      (not part of this model) is taken to hold a pdf tab, active, then a text
      tab, each with a `data-for` attribute, and only the pdf panel shown. */
  function Initial(prefix: string): (g: TabGroup)
    requires '-' !in prefix
    ensures Coherent(g)
    ensures g.inputType == Some("pdf")
  {
    InputTypeOfPrefixed(prefix, "pdf");
    InputTypeOfPrefixed(prefix, "text");
    var tabs := [Tab(prefix + "-" + "pdf", true), Tab(prefix + "-" + "text", false)];
    assert FirstActive(tabs) == Some(0);
    assert forall j :: 0 <= j < |tabs| ==> KnownType(InputTypeOf(tabs[j].dataFor));
    TabGroup(tabs, Some("pdf"), false, true)
  }
}

=== FILE: text.dfy ===
/**
 * The string primitives the two programs rely on, with the semantics of the
 * language each one is written in: JavaScript's `String.prototype.trim` and
 * `String.prototype.split`, Python's `str.find`, `str.rfind` and slicing, and
 * decimal rendering of a non-negative integer.
 */
module Text {

  /** The characters JavaScript's `trim` removes: WhiteSpace and LineTerminator
      of section 12.2 and 12.3 of ECMA-262 (the Zs category as of Unicode 15). */
  predicate IsJsWhitespace(c: char) {
    c == '\t' || c == '\n' || c == '\U{B}' || c == '\U{C}' || c == '\r' || c == ' '
    || c == '\U{A0}' || c == '\U{1680}' || ('\U{2000}' <= c <= '\U{200A}')
    || c == '\U{2028}' || c == '\U{2029}' || c == '\U{202F}' || c == '\U{205F}'
    || c == '\U{3000}' || c == '\U{FEFF}'
  }

  /** Every character of `s` is JavaScript whitespace (vacuously so for ""). */
  predicate IsBlank(s: string) {
    forall i :: 0 <= i < |s| ==> IsJsWhitespace(s[i])
  }

  /** Number of whitespace characters at the front of `s`. */
  function LeadingBlanks(s: string): (k: nat)
    ensures k <= |s|
    ensures forall i :: 0 <= i < k ==> IsJsWhitespace(s[i])
    ensures k < |s| ==> !IsJsWhitespace(s[k])
  {
    if |s| > 0 && IsJsWhitespace(s[0]) then 1 + LeadingBlanks(s[1..]) else 0
  }

  /** Number of whitespace characters at the back of `s`. */
  function TrailingBlanks(s: string): (k: nat)
    ensures k <= |s|
    ensures forall i :: |s| - k <= i < |s| ==> IsJsWhitespace(s[i])
    ensures k < |s| ==> !IsJsWhitespace(s[|s| - k - 1])
  {
    if |s| > 0 && IsJsWhitespace(s[|s| - 1]) then 1 + TrailingBlanks(s[..|s| - 1]) else 0
  }

  /** JavaScript `s.trim()`: `s` without its leading and trailing whitespace.
      The result is empty exactly when `s` is blank, and otherwise it is the
      stretch of `s` from its first to its last non-whitespace character. */
  function Trim(s: string): (r: string)
    ensures r == [] <==> IsBlank(s)
    ensures r != [] ==> !IsJsWhitespace(r[0]) && !IsJsWhitespace(r[|r| - 1])
    ensures exists lo :: 0 <= lo <= |s| - |r| && s[lo..lo + |r|] == r && IsBlank(s[..lo]) && IsBlank(s[lo + |r|..])
  {
    var lo := LeadingBlanks(s);
    var t := s[lo..];
    var r := t[..|t| - TrailingBlanks(t)];
    TrimParts(s, lo, r);
    r
  }

  /** The pieces `Trim` cuts off are blank, so its result is empty exactly
      when the whole string is. */
  lemma TrimParts(s: string, lo: nat, r: string)
    requires lo == LeadingBlanks(s)
    requires r == s[lo..][..|s[lo..]| - TrailingBlanks(s[lo..])]
    ensures lo + |r| <= |s| && s[lo..lo + |r|] == r
    ensures IsBlank(s[..lo]) && IsBlank(s[lo + |r|..])
    ensures r == [] <==> IsBlank(s)
    ensures r != [] ==> !IsJsWhitespace(r[0]) && !IsJsWhitespace(r[|r| - 1])
  {
    var t := s[lo..];
    if r != [] {
      assert r[0] == s[lo];
      assert r[|r| - 1] == t[|t| - TrailingBlanks(t) - 1];
    }
    assert s[lo..lo + |r|] == r;
    assert s[lo + |r|..] == t[|r|..];
    assert IsBlank(t[|r|..]);
  }

  /** JavaScript `s.split(sep)` for a one-character separator: the pieces of
      `s` between occurrences of `sep`; there is always at least one piece. */
  function Split(s: string, sep: char): (parts: seq<string>)
    ensures |parts| >= 1
    ensures forall i :: 0 <= i < |parts| ==> sep !in parts[i]
    decreases |s|
  {
    if |s| == 0 then [""]
    else
      var rest := Split(s[1..], sep);
      if s[0] == sep then [""] + rest
      else [[s[0]] + rest[0]] + rest[1..]
  }

  /** JavaScript `parts.join(sep)`: the inverse of `Split`. */
  function Join(parts: seq<string>, sep: char): string
    requires |parts| >= 1
  {
    if |parts| == 1 then parts[0] else parts[0] + [sep] + Join(parts[1..], sep)
  }

  /** Splitting and joining again gives back the original string. */
  lemma {:induction false} JoinSplit(s: string, sep: char)
    ensures Join(Split(s, sep), sep) == s
    decreases |s|
  {
    if |s| > 0 {
      JoinSplit(s[1..], sep);
      var rest := Split(s[1..], sep);
      if s[0] != sep {
        if |rest| == 1 {
          assert Join(Split(s, sep), sep) == [s[0]] + rest[0];
        } else {
          assert [s[0]] + rest[0] + [sep] + Join(rest[1..], sep) == [s[0]] + Join(rest, sep);
        }
        assert s == [s[0]] + s[1..];
      } else {
        assert s == [sep] + s[1..];
      }
    }
  }

  /** A string without the separator is a single piece. */
  lemma {:induction false} SplitNoSeparator(s: string, sep: char)
    requires sep !in s
    ensures Split(s, sep) == [s]
    decreases |s|
  {
    if |s| > 0 {
      assert sep !in s[1..];
      SplitNoSeparator(s[1..], sep);
      assert s == [s[0]] + s[1..];
    }
  }

  /** A separator-free head followed by the separator splits off as the first piece. */
  lemma {:induction false} SplitAfterHead(head: string, sep: char, tail: string)
    requires sep !in head
    ensures Split(head + [sep] + tail, sep) == [head] + Split(tail, sep)
    decreases |head|
  {
    var s := head + [sep] + tail;
    if |head| == 0 {
      assert s[1..] == tail;
    } else {
      assert s[1..] == head[1..] + [sep] + tail;
      assert sep !in head[1..];
      SplitAfterHead(head[1..], sep, tail);
      assert [head[0]] + head[1..] == head;
    }
  }

  /** `a + "-" + b` with neither part containing the separator splits into `[a, b]`. */
  lemma SplitPair(a: string, sep: char, b: string)
    requires sep !in a && sep !in b
    ensures Split(a + [sep] + b, sep) == [a, b]
  {
    SplitAfterHead(a, sep, b);
    SplitNoSeparator(b, sep);
  }

  /** No bare line break: every CR is followed by LF and every LF follows a CR. */
  predicate HasCanonicalNewlines(s: string) {
    && (forall i :: 0 <= i < |s| && s[i] == '\r' ==> i + 1 < |s| && s[i + 1] == '\n')
    && (forall i :: 0 <= i < |s| && s[i] == '\n' ==> i > 0 && s[i - 1] == '\r')
  }

  /** The newline normalisation of the HTML standard's multipart/form-data
      encoding, applied to every string value of a `FormData` body: a CR not
      followed by LF and an LF not preceded by CR each become CRLF. The result
      is empty exactly when the input is, has no bare line break, and equals
      the input when the input has no CR or LF at all. */
  function NormalizeNewlines(s: string): (r: string)
    ensures r == [] <==> s == []
    ensures HasCanonicalNewlines(r)
    ensures '\r' !in s && '\n' !in s ==> r == s
    decreases |s|
  {
    if |s| == 0 then []
    else if s[0] == '\r' && |s| > 1 && s[1] == '\n' then
      var rest := NormalizeNewlines(s[2..]);
      CanonicalAfterBreak(rest);
      "\r\n" + rest
    else if s[0] == '\r' || s[0] == '\n' then
      var rest := NormalizeNewlines(s[1..]);
      CanonicalAfterBreak(rest);
      "\r\n" + rest
    else
      var rest := NormalizeNewlines(s[1..]);
      assert s == [s[0]] + s[1..];
      var r := [s[0]] + rest;
      assert forall i :: 1 <= i < |r| ==> r[i] == rest[i - 1];
      r
  }

  /** Prefixing CRLF keeps a string free of bare line breaks. */
  lemma CanonicalAfterBreak(rest: string)
    requires HasCanonicalNewlines(rest)
    ensures HasCanonicalNewlines("\r\n" + rest)
  {
    var r := "\r\n" + rest;
    assert forall i :: 2 <= i < |r| ==> r[i] == rest[i - 2];
  }

  /** A string without bare line breaks is left as it is. */
  lemma {:induction false} CanonicalIsFixed(s: string)
    requires HasCanonicalNewlines(s)
    ensures NormalizeNewlines(s) == s
    decreases |s|
  {
    if |s| > 0 {
      if s[0] == '\r' {
        assert s[1] == '\n';
        assert |s| > 2 ==> s[2] != '\n';
        var t := s[2..];
        assert forall i :: 0 <= i < |t| ==> t[i] == s[i + 2];
        assert |t| > 0 ==> t[0] != '\n';
        assert HasCanonicalNewlines(t);
        CanonicalIsFixed(t);
        assert s == "\r\n" + t;
      } else {
        var t := s[1..];
        assert forall i :: 0 <= i < |t| ==> t[i] == s[i + 1];
        assert |t| > 0 ==> t[0] != '\n';
        assert HasCanonicalNewlines(t);
        CanonicalIsFixed(t);
        assert s == [s[0]] + t;
      }
    }
  }

  /** Normalising twice is normalising once. */
  lemma NormalizeNewlinesIdempotent(s: string)
    ensures NormalizeNewlines(NormalizeNewlines(s)) == NormalizeNewlines(s)
  {
    CanonicalIsFixed(NormalizeNewlines(s));
  }

  /** The text with every CR and LF removed: what a reader sees of it apart
      from its line breaks. */
  function Strip(s: string): string {
    if s == [] then []
    else (if s[0] == '\r' || s[0] == '\n' then [] else [s[0]]) + Strip(s[1..])
  }

  /** Every line break (CRLF, a lone CR or a lone LF) written as one LF. */
  function ToLf(s: string): string
    decreases |s|
  {
    if s == [] then []
    else if s[0] == '\r' && |s| > 1 && s[1] == '\n' then "\n" + ToLf(s[2..])
    else (if s[0] == '\r' then "\n" else [s[0]]) + ToLf(s[1..])
  }

  /** Every LF written as CRLF; other characters kept. */
  function LfToCrlf(s: string): string {
    if s == [] then []
    else (if s[0] == '\n' then "\r\n" else [s[0]]) + LfToCrlf(s[1..])
  }

  /** A CRLF in front adds nothing to what `Strip` keeps. */
  lemma StripBreak(rest: string)
    ensures Strip("\r\n" + rest) == Strip(rest)
  {
    var t := "\r\n" + rest;
    assert t[1..] == "\n" + rest;
    assert t[1..][1..] == rest;
  }

  /** Normalisation keeps every character that is not a line break, in order. */
  lemma {:induction false} NormalizeNewlinesKeepsText(s: string)
    ensures Strip(NormalizeNewlines(s)) == Strip(s)
    decreases |s|
  {
    if s != [] {
      if s[0] == '\r' && |s| > 1 && s[1] == '\n' {
        NormalizeNewlinesKeepsText(s[2..]);
        StripBreak(NormalizeNewlines(s[2..]));
        assert s[1..][1..] == s[2..];
      } else if s[0] == '\r' || s[0] == '\n' {
        NormalizeNewlinesKeepsText(s[1..]);
        StripBreak(NormalizeNewlines(s[1..]));
      } else {
        NormalizeNewlinesKeepsText(s[1..]);
        var r := [s[0]] + NormalizeNewlines(s[1..]);
        assert r[1..] == NormalizeNewlines(s[1..]);
      }
    }
  }

  /** Normalisation is the same as reading every kind of line break as one
      line break and writing each as CRLF: the lines, and so the number of
      line breaks, are kept. */
  lemma {:induction false} NormalizeNewlinesViaLf(s: string)
    ensures NormalizeNewlines(s) == LfToCrlf(ToLf(s))
    decreases |s|
  {
    if s != [] {
      if s[0] == '\r' && |s| > 1 && s[1] == '\n' {
        NormalizeNewlinesViaLf(s[2..]);
        var t := "\n" + ToLf(s[2..]);
        assert t[1..] == ToLf(s[2..]);
      } else if s[0] == '\r' || s[0] == '\n' {
        NormalizeNewlinesViaLf(s[1..]);
        var t := "\n" + ToLf(s[1..]);
        assert t[1..] == ToLf(s[1..]);
      } else {
        NormalizeNewlinesViaLf(s[1..]);
        var t := [s[0]] + ToLf(s[1..]);
        assert t[1..] == ToLf(s[1..]);
      }
    }
  }

  /** Python `s.find(c)`: index of the first `c`, or -1. */
  function Find(s: string, c: char): (i: int)
    ensures -1 <= i < |s|
    ensures i == -1 <==> c !in s
    ensures i >= 0 ==> s[i] == c
    ensures forall j :: 0 <= j < |s| && (i == -1 || j < i) ==> s[j] != c
  {
    if |s| == 0 then -1
    else if s[0] == c then 0
    else
      var j := Find(s[1..], c);
      assert forall k :: 1 <= k < |s| ==> s[k] == s[1..][k - 1];
      if j == -1 then -1 else j + 1
  }

  /** Python `s.rfind(c)`: index of the last `c`, or -1. */
  function RFind(s: string, c: char): (i: int)
    ensures -1 <= i < |s|
    ensures i == -1 <==> c !in s
    ensures i >= 0 ==> s[i] == c
    ensures forall j :: i < j < |s| ==> s[j] != c
  {
    if |s| == 0 then -1
    else if s[|s| - 1] == c then |s| - 1
    else
      var init := s[..|s| - 1];
      var j := RFind(init, c);
      assert forall k :: 0 <= k < |init| ==> s[k] == init[k];
      j
  }

  /** Python's resolution of a slice bound against a sequence of length `n`:
      negative bounds count from the end, and the result is clamped to `0..n`. */
  function SliceBound(i: int, n: nat): (b: nat)
    ensures b <= n
  {
    if i < 0 then (if i + n < 0 then 0 else i + n)
    else if i > n then n
    else i
  }

  /** Python `s[a:b]` with step 1, for any integer bounds. */
  function PySlice(s: string, a: int, b: int): string {
    var lo := SliceBound(a, |s|);
    var hi := SliceBound(b, |s|);
    if lo >= hi then [] else s[lo..hi]
  }

  /** The decimal digit character for `d`. */
  function DigitChar(d: nat): (c: char)
    requires d < 10
    ensures '0' <= c <= '9'
  {
    ['0', '1', '2', '3', '4', '5', '6', '7', '8', '9'][d]
  }

  /** The value of a decimal digit character. */
  function DigitValue(c: char): (d: nat)
    requires '0' <= c <= '9'
    ensures d < 10
  {
    (c as int - '0' as int) as nat
  }

  predicate IsDigits(s: string) {
    forall i :: 0 <= i < |s| ==> '0' <= s[i] <= '9'
  }

  /** The decimal numeral of `n` as JavaScript's template literals print a
      non-negative integer: digits only, with no leading zero unless `n` is 0. */
  function Decimal(n: nat): (r: string)
    ensures |r| >= 1 && IsDigits(r)
    ensures r[0] == '0' ==> n == 0
  {
    if n < 10 then [DigitChar(n)] else Decimal(n / 10) + [DigitChar(n % 10)]
  }

  /** Reading a string of digits back as a number. */
  function ParseDecimal(s: string): nat
    requires IsDigits(s)
  {
    if |s| == 0 then 0 else 10 * ParseDecimal(s[..|s| - 1]) + DigitValue(s[|s| - 1])
  }

  /** `Decimal` loses nothing: its numeral reads back as the number. */
  lemma {:induction false} DecimalRoundTrip(n: nat)
    ensures ParseDecimal(Decimal(n)) == n
  {
    if n >= 10 {
      DecimalRoundTrip(n / 10);
      var r := Decimal(n);
      assert r[..|r| - 1] == Decimal(n / 10);
    }
  }
}

=== FILE: wrappers.dfy ===
/** Option and Result, shared by the frontend and backend models. */
module Wrappers {

  /** An optional value; also stands for JavaScript `undefined` and Python `None`. */
  datatype Option<+T> = None | Some(value: T) {

    /** The wrapped value, or `default` when there is none. */
    function GetOr(default: T): T {
      match this
      case Some(v) => v
      case None => default
    }
  }

  /** The outcome of a step that either yields a value or stops with an error. */
  datatype Result<+T, +E> = Ok(value: T) | Err(error: E)
}
